=== FILE: README.md ===
# Contact record of the address-book bot, in Dafny

This project models the contact record of a command-line address book
(`services/utils/address_book/record.py`, class `Record`). A record is a name, an
ordered list of phones whose values are pairwise distinct, and optional
birthday, address and email. The modelled operations are the constructor,
`add_phone`, `replace_phone`, `remove_phone`, the three `change_*` setters and
`days_to_birthday`. The handlers look a record up by name with `AddressBook()[name]`,
and that lookup is modelled too.

The model is functional. A `Record` is an immutable datatype, and every mutating
method becomes a function that returns a `Step`: the record as the call leaves it,
plus either the returned value or the exception raised. The record travels with
the exception because `replace_phone` can raise after it has already removed a
phone.

Modules, one per concern:

- `Base` (`base.dfy`): `Option`, `Result` and the error kinds. `InvalidFormat` stands for a
  value type rejecting its input. `DuplicatePhone` is add_phone's `ValueError`.
  `IndexOutOfRange` is `IndexError`. `IndexOverflow` is the `OverflowError` that `list.pop`
  raises when its argument does not fit a 64-bit `Py_ssize_t`. `YearOutOfRange` and `DayOutOfRange` are
  the `ValueError`s of `date.replace`. `ContactNotFound` is a failed lookup.
- `Calendar` (`calendar.dfy`): Python `date` semantics for years 1..9999. It covers
  `toordinal` (the closed form with the cumulative month table), `replace(year=...)`,
  and `(a - b).days` as a difference of ordinals. The closed form is proved
  equal to an independent count that adds up the days one year and one month
  at a time. It is also proved order-preserving and to step by one from each day to the next.
- `Values` (`values.dfy`): the value types `Name`, `Phone`, `Birthday`, `Address`, `Email`.
  Their validating constructors are given as a `Parsers` value.
- `PhoneList` (`phone_list.dfy`): uniqueness by value, and `list.pop(index - 1)` with
  Python's negative indexing and its `Py_ssize_t` conversion. A few lemmas assume the list
  is `Addressable`, meaning it holds at most `2^63 - 1` items, as every Python list does.
- `Records` (`record.dfy`): the record and its phone and field operations.
- `Countdown` (`countdown.dfy`): `days_to_birthday` as written, the properties of its
  three branches, and the corrected next-occurrence count.
- `Directory` (`directory.dfy`): lookup by name.

Inputs the source obtains from outside are parameters. `date.today()` is the
`today` argument. The value-type constructors are the fields of `Parsers`. Each
is a total function that returns `None` where the constructor would raise.

The model follows the code where it departs from what its callers expect.
The handlers treat IndexError as "not a number from the list". But
`pop(index - 1)` also accepts `1 - len .. 0`, counting from the end. A failing
`replace_phone` reports an error after it has already popped the old phone.
Both are modelled as written, and both are listed under Findings next to a
corrected version.

## Model

| member | source | states |
|---|---|---|
| `Calendar.Replace` | services/utils/address_book/record.py:66-69 | `replace(year=y)` succeeds exactly when y is in 1..9999 and the day exists in that month of y. It then keeps month and day. An out-of-range year is reported as such, ahead of any day check |
| `Calendar.ReplaceFailsOnlyOnLeapDay` | services/utils/address_book/record.py:66-69 | with an in-range target year, moving a birthday fails exactly for 29 February moved to a common year |
| `Calendar.DaysBeforeYearCounts` | services/utils/address_book/record.py:71 | the closed-form count of days before a year equals the year-by-year sum of 365/366 |
| `Calendar.DaysBeforeMonthCounts` | services/utils/address_book/record.py:71 | the cumulative month table plus the leap day equals the month-by-month sum of month lengths |
| `Calendar.OrdinalCountsDays` | services/utils/address_book/record.py:71 | a date's ordinal is the number of days from 1 January of year 1 up to and including it, so it is at least 1 |
| `Calendar.OrdinalOrder` | services/utils/address_book/record.py:71 | one date is before another exactly when its ordinal is smaller, and equal dates are exactly those with equal ordinals, so `(a - b).days` has the sign of their order |
| `Calendar.NextDayOrdinal` | services/utils/address_book/record.py:71 | the day after a date has ordinal one larger, across month and year ends, so differences count calendar days |
| `Values.Construct` | services/utils/address_book/record.py:25 | running a value type's constructor either yields the accepted value or raises InvalidFormat, and nothing else |
| `PhoneList.Pop` | services/utils/address_book/record.py:56 | `pop(index - 1)` succeeds exactly when `index - 1` fits a `Py_ssize_t` and `1 - len <= index <= len`. Otherwise it raises OverflowError when `index - 1` does not fit, and IndexError when it does. For any real Python list, success is exactly `1 - len <= index <= len`. It returns the phone in the addressed slot and a list one shorter that keeps the phones before the slot in place and shifts those after it down by one |
| `PhoneList.PopInRange` | services/utils/address_book/record.py:56 | a 1-based index `i` in `1..len` whose `i - 1` fits a `Py_ssize_t` pops `phones[i-1]` and leaves `phones[..i-1] + phones[i..]` |
| `PhoneList.PopZeroTakesLast` | services/utils/address_book/record.py:56 | index 0 on a non-empty list pops the last phone rather than raising |
| `PhoneList.PopUndo` | services/utils/address_book/record.py:56 | inserting the popped phone back into its slot gives the original list |
| `PhoneList.PopIsRemoval` | services/utils/address_book/record.py:56 | the remaining phones plus the popped one are, as a multiset, the original phones |
| `PhoneList.PopKeepsDistinct` | services/utils/address_book/record.py:56 | popping from a list with distinct values leaves distinct values, and the popped value is no longer in the list |
| `PhoneList.AppendKeepsDistinct` | services/utils/address_book/record.py:27-30 | appending a phone whose value is absent keeps the values distinct |
| `Records.ConstructOptional` | services/utils/address_book/record.py:19-22 | an optional argument that is missing or empty is left unset. Any other argument is validated, and a rejection raises InvalidFormat |
| `Records.NewRecord` | services/utils/address_book/record.py:12-22 | construction succeeds exactly when the name and every given optional field validate. The new record satisfies the uniqueness invariant. It has one phone when a phone was given and none otherwise. Each optional field is set exactly when given, to its validated value |
| `Records.AddPhone` | services/utils/address_book/record.py:24-32 | a rejected number raises InvalidFormat and changes nothing. A number whose value is already present raises DuplicatePhone and changes nothing. Otherwise the validated phone is appended at the end and returned, and nothing else changes. Uniqueness is preserved in every case |
| `Records.RemovePhone` | services/utils/address_book/record.py:55-56 | succeeds exactly when `index - 1` fits a `Py_ssize_t` and `1 - len <= index <= len`; for any real Python list that is exactly the range. Otherwise it raises OverflowError (`index - 1` does not fit) or IndexError, with the record unchanged, so every index fails on an empty list. On success exactly one phone leaves the list and nothing else changes. The removed phone and the remaining list are exactly those of `pop(index - 1)`, negative slots included. For `index >= 1` that phone is `phones[index-1]` and the rest keep their order. Uniqueness is preserved, and the removed value is gone |
| `Records.ReplacePhone` | services/utils/address_book/record.py:34-38 | an `index - 1` that does not fit a `Py_ssize_t` raises OverflowError, and any other index outside `pop`'s range raises IndexError, both with the record unchanged. Otherwise the old phone is popped first. If the new number is rejected or duplicates a remaining phone, the error is raised with the pop already done (length −1). On success the result is `(old, new)`, the length is unchanged, the new phone is last, and the other phones keep their order. Uniqueness is preserved in every case |
| `Records.ChangeBirthday` | services/utils/address_book/record.py:40-43 | a valid value overwrites only the birthday and is returned. An invalid one raises InvalidFormat and changes nothing |
| `Records.ChangeEmail` | services/utils/address_book/record.py:45-48 | a valid value overwrites only the email and is returned. An invalid one raises InvalidFormat and changes nothing |
| `Records.ChangeAddress` | services/utils/address_book/record.py:50-53 | a valid value overwrites only the address and is returned. An invalid one raises InvalidFormat and changes nothing |
| `Countdown.DaysToBirthday` | services/utils/address_book/record.py:58-71 | the result is `None` exactly when no birthday is set. The only exceptions are the two `date.replace` errors |
| `Records.AddThenRemoveRestores` | services/utils/address_book/record.py:24-32 | after a successful `add_phone`, removing the last phone, by index `len` or by 0, returns the added phone and restores the record exactly |
| `Records.ReplaceWithSameNumber` | services/utils/address_book/record.py:34-38 | replacing a phone by its own number succeeds and moves that phone to the end. The multiset of phones is unchanged |
| `Records.LastWriteWins` | services/utils/address_book/record.py:40-53 | two successive changes of a field equal the second change alone, and a rejected second birthday keeps the first |
| `Records.PhoneSessionExample` | services/utils/address_book/record.py:24-38 | one session on an empty record: add a number; adding it again raises DuplicatePhone; replace index 1 with a new number; removing index 1 returns the new number and empties the list; removing index 1 again raises IndexError |
| `Records.HugeIndexOverflows` | services/utils/address_book/record.py:56 | an index of `2^63 + 1` makes both `remove_phone` and `replace_phone` raise OverflowError with the record unchanged. The handlers' IndexError retry (services/handlers/phone.py:51, 87) does not catch it |
| `Records.NegativeIndexRemovesPhone` | services/utils/address_book/record.py:55-56 | with two or more phones, `remove_phone(-1)` succeeds and removes the second-to-last phone |
| `Records.RemovePhoneChecked` | services/utils/address_book/record.py:55-56 | corrected removal: it succeeds exactly for `1 <= index <= len`, returning `phones[index-1]` and keeping the rest in order. Any other index raises IndexError with the record unchanged |
| `Records.ReplaceCollisionDropsPhone` | services/utils/address_book/record.py:34-38 | replacing phone `index` by the number of another phone on the record raises DuplicatePhone and leaves the record one phone short |
| `Records.ReplacePhoneAtomic` | services/utils/address_book/record.py:34-38 | corrected replacement: every failure leaves the record unchanged. It succeeds exactly for a 1-based index in range and a valid number not held by another phone, with the same result and list as `replace_phone` |
| `Records.ReplaceAtomicAgrees` | services/utils/address_book/record.py:34-38 | for every index >= 1 whose `index - 1` fits a `Py_ssize_t`, both replacements report the same outcome. Past that bound, `replace_phone` raises OverflowError, while the atomic version raises IndexError on any real list. Whenever `replace_phone` succeeds, both leave the same record |
| `Countdown.ThisYearCount` | services/utils/address_book/record.py:65-66 | in the first branch the count is to this year's date. It fails exactly for 29 February in a common year. Otherwise it lies between 0 and the year's length minus one |
| `Countdown.NextYearCount` | services/utils/address_book/record.py:68-69 | in the second branch the count is to next year's date. It fails exactly in year 9999 or for 29 February before a common year. Otherwise it lies between 1 and the current year's length |
| `Countdown.FallThroughKeepsBirthYear` | services/utils/address_book/record.py:65-71 | when the birthday's month is later than today's but its day is earlier, the count is to the birthday itself, birth year included |
| `Countdown.FallThroughIsNegative` | services/utils/address_book/record.py:65-71 | in that case any birthday in an earlier year gives a negative count |
| `Countdown.FallThroughExample` | services/utils/address_book/record.py:65-71 | born 1990-05-01, asked on 2024-03-15: the code answers −12372, the next occurrence is 47 days away |
| `Countdown.DaysToNextBirthday` | services/utils/address_book/record.py:58-71 | corrected count: `None` exactly without a birthday. Otherwise the target is this year's date when the birthday's month and day are today's or later, and next year's date if not. The count fails exactly when that target year is past 9999 or the birthday is 29 February and the target year is a common year. Otherwise the count is the distance to some date with the birthday's month and day that is not before today, and it lies between 0 and the current year's length |
| `Countdown.NextBirthdayIsEarliest` | services/utils/address_book/record.py:58-71 | the corrected count is at most the distance to any date on or after today that has the birthday's month and day. Together with the attained occurrence in `DaysToNextBirthday`'s contract, it is the distance to the nearest one |
| `Countdown.LeapDayInLateJanuary` | services/utils/address_book/record.py:65-71 | on 30 or 31 January of a common year, a 29 February birthday falls through in the code and is counted to the birth date. The corrected count raises DayOutOfRange there instead |
| `Countdown.NextBirthdayAgrees` | services/utils/address_book/record.py:65-71 | outside the fall-through case, the literal branches give exactly the corrected count |
| `Directory.Lookup` | services/handlers/phone.py:15 | looking up a name yields the stored record exactly when the name is present, and ContactNotFound otherwise |
| `Directory.LookupAfterStore` | services/handlers/phone.py:15 | after a record is stored under a name, looking the name up yields that record, and lookups of other names are unaffected. This is how the record returned by an operation replaces the shared one |

## Findings

| source | as written | input that shows it | evidently intended | confidence | as-written member | corrected member |
|---|---|---|---|---|---|---|
| services/utils/address_book/record.py:65-71 | a birthday in a later month but on an earlier day than today matches neither branch and keeps its birth year | birthday 1990-05-01, today 2024-03-15: −12372 | 47, the days to 2024-05-01 | high; not executed | `Countdown.FallThroughExample` | `Countdown.DaysToNextBirthday` |
| services/utils/address_book/record.py:34-38 | `replace_phone` pops the old phone before `add_phone` can raise, so a duplicate or invalid new number loses the old phone | phones [A, B], `replace_phone(1, <B's number>)`: ValueError, phones [B] | ValueError with phones still [A, B] | high; not executed | `Records.ReplaceCollisionDropsPhone` | `Records.ReplacePhoneAtomic` |
| services/utils/address_book/record.py:56 | `pop(index - 1)` accepts negative indices. The handlers intercept only 0 and catch IndexError to re-prompt (services/handlers/phone.py:82-87) | phones [A, B, C], `remove_phone(-1)`: returns B, phones [A, C] | IndexError, so the user is asked again | medium; not executed | `Records.NegativeIndexRemovesPhone` | `Records.RemovePhoneChecked` |
| services/utils/address_book/record.py:56 | `pop(index - 1)` converts the index to a `Py_ssize_t` first, so an index past `2^63` raises OverflowError. The handlers pass `int(input(...))` unchecked and catch only IndexError (services/handlers/phone.py:75-87) | any list, `remove_phone(2**63 + 1)`: OverflowError, which escapes the retry loop | IndexError, so the user is asked again | medium; not executed | `Records.HugeIndexOverflows` | `Records.RemovePhoneChecked` |

The corrected count only replaces the independent month and day comparisons
with the calendar order. Like the source, it raises when a 29 February birthday
is moved to a common year. Because it picks the year differently, it does not
fail on exactly the same days. On 30 or 31 January of a common year, a
29 February birthday falls through in the source, which returns a negative
count. The corrected count moves it to that common year and raises
DayOutOfRange instead (`Countdown.LeapDayInLateJanuary`).

## Left out

- `format_record` and `__repr__` (record.py:73-82) are left out: they only render text.
- The handlers in `services/handlers/phone.py` are left out: prompt loops, `print`, `input`, and the
  `@route`/`@input_error` decorators. They supply only the facts cited above: index 0 means cancel,
  and IndexError means ask again.
- The validation rules of `Name`, `Phone`, `Birthday`, `Address`, `Email` are left out: the files
  defining them are not part of this model. They are the `Parsers` parameter. The kind of exception
  they raise is unknown, so it is reported as `InvalidFormat`. Exception messages are not modelled.
- A `Phone` is modelled by its `value` alone, so datatype equality is the source's `.value` comparison.
  Any other state of a phone object is not modelled.
- `date.today()` is the `today` parameter.
- `Birthday.value` is assumed to be a `datetime.date`, so `birthday - today` is a whole-day difference. The
  `Birthday` class is not part of this model. If its value were a `datetime`, record.py:71 would raise
  TypeError in every branch, and none of the `days_to_birthday` results here would hold.
- `if not self.birthday` is read as "no birthday set": a set `Birthday` object is assumed to be truthy,
  because its class is not part of this model.
- `AddressBook` is not part of this model beyond the lookup the handlers perform. A missing name raising
  `ContactNotFound` is an assumption: the class that raises it is not part of this model. Inserting and
  deleting contacts and the global singleton are left out.
- The model has no in-place mutation. The source mutates the shared record returned by the lookup;
  here a caller stores the `rec` of a `Step` back in place of the old record.

=== FILE: base.dfy ===
/** Failure-carrying datatypes shared by the whole model. */
module Base {

  /** An optional value; stands for Python's `None` or the record's `''` "unset" marker. */
  datatype Option<+T> = None | Some(value: T)

  /** The outcome of an operation that may raise an exception. */
  datatype Result<+T> = Ok(value: T) | Err(error: Error) {

    predicate IsFailure() {
      Err?
    }

    /** Re-raises the same exception from a caller with another result type. */
    function PropagateFailure<U>(): Result<U>
      requires Err?
    {
      Err(error)
    }

    function Extract(): T
      requires Ok?
    {
      value
    }
  }

  /** The exceptions the modelled code can raise, by kind. */
  datatype Error =
    | InvalidFormat            // a value type's constructor rejected its raw string
    | DuplicatePhone(value: string)  // add_phone's ValueError: the number is already on the record
    | IndexOutOfRange          // IndexError from list.pop
    | IndexOverflow            // OverflowError from list.pop: the index does not fit a Py_ssize_t
    | YearOutOfRange           // date.replace: the year is outside 1..9999
    | DayOutOfRange            // date.replace: the day does not exist in the target month
    | ContactNotFound          // no record is stored under the name
}

=== FILE: calendar.dfy ===
/**
 * Proleptic Gregorian dates as Python's `datetime.date` handles them:
 * years 1..9999, `toordinal` numbering (1 January of year 1 is day 1),
 * `replace(year=...)` and the day count of a date difference.
 */
module Calendar {
  import opened Base

  const MinYear: int := 1
  const MaxYear: int := 9999

  datatype Ymd = Ymd(year: int, month: int, day: int)

  predicate IsLeapYear(y: int) {
    y % 4 == 0 && (y % 100 != 0 || y % 400 == 0)
  }

  function DaysInYear(y: int): int {
    if IsLeapYear(y) then 366 else 365
  }

  function DaysInMonth(y: int, m: int): int
    requires 1 <= m <= 12
  {
    if m == 2 then (if IsLeapYear(y) then 29 else 28)
    else if m == 4 || m == 6 || m == 9 || m == 11 then 30
    else 31
  }

  predicate ValidDate(d: Ymd) {
    && MinYear <= d.year <= MaxYear
    && 1 <= d.month <= 12
    && 1 <= d.day <= DaysInMonth(d.year, d.month)
  }

  /** The values a `date` object can hold. */
  type Date = d: Ymd | ValidDate(d) witness Ymd(1, 1, 1)

  /** Days in the years before `y`, in closed form (leap years are every 4th, not every 100th, every 400th). */
  function DaysBeforeYear(y: int): int
    requires y >= 1
  {
    var p := y - 1;
    p * 365 + p / 4 - p / 100 + p / 400
  }

  /** Days in the months of year `y` before month `m`: the cumulative month table plus the leap day. */
  function DaysBeforeMonth(y: int, m: int): int
    requires 1 <= m <= 12
  {
    var table :=
      if m == 1 then 0 else if m == 2 then 31 else if m == 3 then 59
      else if m == 4 then 90 else if m == 5 then 120 else if m == 6 then 151
      else if m == 7 then 181 else if m == 8 then 212 else if m == 9 then 243
      else if m == 10 then 273 else if m == 11 then 304 else 334;
    table + (if m > 2 && IsLeapYear(y) then 1 else 0)
  }

  /** `date.toordinal()`. */
  function Ordinal(d: Date): int {
    DaysBeforeYear(d.year) + DaysBeforeMonth(d.year, d.month) + d.day
  }

  /** `(a - b).days`: Python subtracts the two ordinals. */
  function DaysBetween(a: Date, b: Date): int {
    Ordinal(a) - Ordinal(b)
  }

  /** Chronological order of calendar triples. */
  predicate Before(a: Ymd, b: Ymd) {
    || a.year < b.year
    || (a.year == b.year && a.month < b.month)
    || (a.year == b.year && a.month == b.month && a.day < b.day)
  }

  /**
   * `d.replace(year=year)`: the year is checked first, then whether the day
   * exists in that month of the new year; both failures are ValueErrors.
   */
  function Replace(d: Date, year: int): (r: Result<Date>)
    ensures r.Ok? <==> MinYear <= year <= MaxYear && d.day <= DaysInMonth(year, d.month)
    ensures r.Ok? ==> r.value.year == year && r.value.month == d.month && r.value.day == d.day
    ensures r == Err(YearOutOfRange) <==> !(MinYear <= year <= MaxYear)
  {
    if !(MinYear <= year <= MaxYear) then Err(YearOutOfRange)
    else if d.day > DaysInMonth(year, d.month) then Err(DayOutOfRange)
    else Ok(Ymd(year, d.month, d.day))
  }

  /** The only date that cannot be moved to another valid year is 29 February. */
  lemma ReplaceFailsOnlyOnLeapDay(d: Date, year: int)
    requires MinYear <= year <= MaxYear
    ensures Replace(d, year).Err? <==> d.month == 2 && d.day == 29 && !IsLeapYear(year)
  {
  }

  /** The day after `d`, if it is still a `date`. */
  function NextDay(d: Date): Option<Date> {
    if d.day < DaysInMonth(d.year, d.month) then Some(Ymd(d.year, d.month, d.day + 1))
    else if d.month < 12 then Some(Ymd(d.year, d.month + 1, 1))
    else if d.year < MaxYear then Some(Ymd(d.year + 1, 1, 1))
    else None
  }

  // ---------------------------------------------------------------------
  // Reference definitions: day counts accumulated one year / month at a time.

  /** Days in the years 1 .. y-1, summed year by year. */
  function YearsBefore(y: int): int
    requires y >= 1
    decreases y
  {
    if y == 1 then 0 else YearsBefore(y - 1) + DaysInYear(y - 1)
  }

  /** Days in the months 1 .. m-1 of year `y`, summed month by month. */
  function MonthsBefore(y: int, m: int): int
    requires 1 <= m <= 12
    decreases m
  {
    if m == 1 then 0 else MonthsBefore(y, m - 1) + DaysInMonth(y, m - 1)
  }

  /** Moving to the next year adds exactly that year's length to the closed form. */
  lemma YearStep(y: int)
    requires y >= 1
    ensures DaysBeforeYear(y + 1) == DaysBeforeYear(y) + DaysInYear(y)
  {
    var p := y - 1;
    assert y / 4 - p / 4 == (if y % 4 == 0 then 1 else 0);
    assert y / 100 - p / 100 == (if y % 100 == 0 then 1 else 0);
    assert y / 400 - p / 400 == (if y % 400 == 0 then 1 else 0);
  }

  /** Moving to the next month adds exactly that month's length to the table. */
  lemma MonthStep(y: int, m: int)
    requires 1 <= m < 12
    ensures DaysBeforeMonth(y, m + 1) == DaysBeforeMonth(y, m) + DaysInMonth(y, m)
  {
  }

  /** The closed form for whole years agrees with the year-by-year count. */
  lemma {:induction false} DaysBeforeYearCounts(y: int)
    requires y >= 1
    ensures DaysBeforeYear(y) == YearsBefore(y)
    decreases y
  {
    if y > 1 {
      DaysBeforeYearCounts(y - 1);
      YearStep(y - 1);
    }
  }

  /** The month table agrees with the month-by-month count. */
  lemma {:induction false} DaysBeforeMonthCounts(y: int, m: int)
    requires 1 <= m <= 12
    ensures DaysBeforeMonth(y, m) == MonthsBefore(y, m)
    decreases m
  {
    if m > 1 {
      DaysBeforeMonthCounts(y, m - 1);
      MonthStep(y, m - 1);
    }
  }

  /** `toordinal` is the number of days from 1 January of year 1 up to and including `d`. */
  lemma OrdinalCountsDays(d: Date)
    ensures Ordinal(d) == YearsBefore(d.year) + MonthsBefore(d.year, d.month) + d.day
    ensures Ordinal(d) >= 1
  {
    DaysBeforeYearCounts(d.year);
    DaysBeforeMonthCounts(d.year, d.month);
  }

  /** A date's position inside its year lies between 1 and the year's length. */
  lemma DayOfYearBounds(d: Date)
    ensures 1 <= DaysBeforeMonth(d.year, d.month) + d.day <= DaysInYear(d.year)
  {
  }

  /** Later months start after earlier months end. */
  lemma MonthsOrdered(y: int, m1: int, m2: int)
    requires 1 <= m1 < m2 <= 12
    ensures DaysBeforeMonth(y, m1) + DaysInMonth(y, m1) <= DaysBeforeMonth(y, m2)
  {
  }

  /** Later years start after earlier years end. */
  lemma {:induction false} YearsOrdered(y1: int, y2: int)
    requires 1 <= y1 < y2
    ensures DaysBeforeYear(y1) + DaysInYear(y1) <= DaysBeforeYear(y2)
    decreases y2
  {
    YearStep(y2 - 1);
    if y1 < y2 - 1 {
      YearsOrdered(y1, y2 - 1);
    }
  }

  /** Ordinals are ordered like the dates they number. */
  lemma OrdinalMonotone(a: Date, b: Date)
    requires Before(a, b)
    ensures Ordinal(a) < Ordinal(b)
  {
    DayOfYearBounds(a);
    DayOfYearBounds(b);
    if a.year < b.year {
      YearsOrdered(a.year, b.year);
    } else if a.month < b.month {
      MonthsOrdered(a.year, a.month, b.month);
    }
  }

  /** Ordinals are ordered exactly like dates, so distinct dates have distinct ordinals. */
  lemma OrdinalOrder(a: Date, b: Date)
    ensures Before(a, b) <==> Ordinal(a) < Ordinal(b)
    ensures a == b <==> Ordinal(a) == Ordinal(b)
  {
    if Before(a, b) {
      OrdinalMonotone(a, b);
    } else if Before(b, a) {
      OrdinalMonotone(b, a);
    }
  }

  /** Consecutive days have consecutive ordinals, so `DaysBetween` counts calendar days. */
  lemma NextDayOrdinal(d: Date)
    requires NextDay(d).Some?
    ensures Ordinal(NextDay(d).value) == Ordinal(d) + 1
  {
    if d.day == DaysInMonth(d.year, d.month) {
      if d.month < 12 {
        MonthStep(d.year, d.month);
      } else {
        YearStep(d.year);
      }
    }
  }
}

=== FILE: countdown.dfy ===
/**
 * What `days_to_birthday` computes in each of its three branches, and the
 * next-occurrence count it evidently meant to compute.
 */
module Countdown {
  import opened Base
  import opened Calendar
  import opened Values
  import opened Records

  /**
   * `days_to_birthday(today)`: `None` without a birthday. If the birthday's
   * month and day are each at least today's, count to this year's date; else,
   * if its month is at most today's, count to next year's date; otherwise the
   * birthday keeps its own year. `replace(year=...)` can raise.
   */
  function DaysToBirthday(r: Record, today: Date): (res: Result<Option<int>>)
    ensures r.birthday.None? <==> res == Ok(None)
    ensures res.Err? ==> res.error == DayOutOfRange || res.error == YearOutOfRange
  {
    match r.birthday
    case None => Ok(None)
    case Some(b) =>
      var bd := b.value;
      if bd.month >= today.month && bd.day >= today.day then
        var t :- Replace(bd, today.year);
        Ok(Some(DaysBetween(t, today)))
      else if bd.month <= today.month then
        var t :- Replace(bd, today.year + 1);
        Ok(Some(DaysBetween(t, today)))
      else
        Ok(Some(DaysBetween(bd, today)))
  }

  /** The first branch: birthday month and day each at least today's. */
  predicate ThisYearBranch(b: Date, today: Date) {
    b.month >= today.month && b.day >= today.day
  }

  /** The second branch: not the first, and birthday month at most today's. */
  predicate NextYearBranch(b: Date, today: Date) {
    !ThisYearBranch(b, today) && b.month <= today.month
  }

  /** Neither branch: a later month but an earlier day, so the birth year is kept. */
  predicate FallsThrough(b: Date, today: Date) {
    !ThisYearBranch(b, today) && b.month > today.month
  }

  /** The birthday's month and day are today's or later in the calendar year. */
  predicate OnOrAfterInYear(b: Date, today: Date) {
    b.month > today.month || (b.month == today.month && b.day >= today.day)
  }

  /** The first branch counts 0 .. (year length - 1) days to this year's date; it fails only for 29 February in a common year. */
  lemma ThisYearCount(r: Record, today: Date)
    requires r.birthday.Some? && ThisYearBranch(r.birthday.value.value, today)
    ensures
      var b := r.birthday.value.value;
      var res := DaysToBirthday(r, today);
      && (res.Err? <==> b.month == 2 && b.day == 29 && !IsLeapYear(today.year))
      && (res.Ok? ==>
            && res.value == Some(DaysBetween(Ymd(today.year, b.month, b.day), today))
            && 0 <= res.value.value < DaysInYear(today.year))
  {
    var b := r.birthday.value.value;
    var y := today.year;
    ReplaceFailsOnlyOnLeapDay(b, y);
    if DaysToBirthday(r, today).Ok? {
      var t: Date := Ymd(y, b.month, b.day);
      DayOfYearBounds(t);
      DayOfYearBounds(today);
      if b.month > today.month {
        MonthsOrdered(y, today.month, b.month);
      }
    }
  }

  /** The second branch counts 1 .. (year length) days to next year's date; it fails in year 9999 and for 29 February before a common year. */
  lemma NextYearCount(r: Record, today: Date)
    requires r.birthday.Some? && NextYearBranch(r.birthday.value.value, today)
    ensures
      var b := r.birthday.value.value;
      var res := DaysToBirthday(r, today);
      && (res.Err? <==> today.year == MaxYear || (b.month == 2 && b.day == 29 && !IsLeapYear(today.year + 1)))
      && (res.Ok? ==>
            && res.value == Some(DaysBetween(Ymd(today.year + 1, b.month, b.day), today))
            && 1 <= res.value.value <= DaysInYear(today.year))
  {
    var b := r.birthday.value.value;
    var y := today.year;
    if y < MaxYear {
      ReplaceFailsOnlyOnLeapDay(b, y + 1);
    }
    if DaysToBirthday(r, today).Ok? {
      var t: Date := Ymd(y + 1, b.month, b.day);
      YearStep(y);
      DayOfYearBounds(t);
      DayOfYearBounds(today);
      if b.month < today.month {
        MonthsOrdered(y + 1, b.month, today.month);
      }
    }
  }

  /** In the fall-through case the count is taken to the birthday itself, birth year included. */
  lemma FallThroughKeepsBirthYear(r: Record, today: Date)
    requires r.birthday.Some? && FallsThrough(r.birthday.value.value, today)
    ensures DaysToBirthday(r, today) == Ok(Some(DaysBetween(r.birthday.value.value, today)))
  {
  }

  /** So any birthday in an earlier year that falls through yields a negative count. */
  lemma FallThroughIsNegative(r: Record, today: Date)
    requires r.birthday.Some? && FallsThrough(r.birthday.value.value, today)
    requires r.birthday.value.value.year < today.year
    ensures DaysToBirthday(r, today).Ok?
    ensures DaysToBirthday(r, today).value.Some? && DaysToBirthday(r, today).value.value < 0
  {
    OrdinalMonotone(r.birthday.value.value, today);
  }

  /** Born 1 May 1990, asked on 15 March 2024: 12372 days in the past instead of 47 ahead. */
  lemma FallThroughExample(r: Record)
    requires r.birthday == Some(Birthday(Ymd(1990, 5, 1)))
    ensures DaysToBirthday(r, Ymd(2024, 3, 15)) == Ok(Some(-12372))
    ensures DaysToNextBirthday(r, Ymd(2024, 3, 15)) == Ok(Some(47))
  {
  }

  /** The days until the next 'birthday': this year's date if it has not passed, otherwise next year's. */
  function DaysToNextBirthday(r: Record, today: Date): (res: Result<Option<int>>)
    ensures r.birthday.None? <==> res == Ok(None)
    ensures r.birthday.Some? ==>
      var b := r.birthday.value.value;
      var year := if OnOrAfterInYear(b, today) then today.year else today.year + 1;
      res.Err? <==> year > MaxYear || (b.month == 2 && b.day == 29 && !IsLeapYear(year))
    ensures res.Ok? && res.value.Some? ==> 0 <= res.value.value <= DaysInYear(today.year)
    ensures res.Ok? && res.value.Some? ==>
      var b := r.birthday.value.value;
      exists t: Date :: t.month == b.month && t.day == b.day && !Before(t, today)
        && res.value.value == DaysBetween(t, today)
  {
    match r.birthday
    case None => Ok(None)
    case Some(b) =>
      var bd := b.value;
      var year := if OnOrAfterInYear(bd, today) then today.year else today.year + 1;
      var t :- Replace(bd, year);
      assert 0 <= DaysBetween(t, today) <= DaysInYear(today.year) by {
        DayOfYearBounds(t);
        DayOfYearBounds(today);
        if year == today.year {
          if bd.month > today.month {
            MonthsOrdered(year, today.month, bd.month);
          }
        } else {
          YearStep(today.year);
          if bd.month < today.month {
            MonthsOrdered(year, bd.month, today.month);
          }
        }
      }
      assert !Before(t, today);
      Ok(Some(DaysBetween(t, today)))
  }

  /** No date with the birthday's month and day, on or after today, comes sooner than the counted one. */
  lemma NextBirthdayIsEarliest(r: Record, today: Date, u: Date)
    requires r.birthday.Some?
    requires DaysToNextBirthday(r, today).Ok?
    requires u.month == r.birthday.value.value.month && u.day == r.birthday.value.value.day
    requires !Before(u, today)
    ensures DaysToNextBirthday(r, today).value.Some?
    ensures DaysToNextBirthday(r, today).value.value <= DaysBetween(u, today)
  {
    var b := r.birthday.value.value;
    var year := if OnOrAfterInYear(b, today) then today.year else today.year + 1;
    var t: Date := Ymd(year, b.month, b.day);
    assert u.year >= year;
    if u != t {
      OrdinalMonotone(t, u);
    }
  }

  /** Outside the fall-through case the literal branches compute the next-occurrence count. */
  lemma NextBirthdayAgrees(r: Record, today: Date)
    requires r.birthday.Some? ==> !FallsThrough(r.birthday.value.value, today)
    ensures DaysToNextBirthday(r, today) == DaysToBirthday(r, today)
  {
  }

  /**
   * The two counts fail on different days: on 30 or 31 January of a common
   * year a 29 February birthday falls through as written, but the corrected
   * count targets that year's missing 29 February and raises.
   */
  lemma LeapDayInLateJanuary(r: Record, today: Date)
    requires r.birthday.Some? && r.birthday.value.value.month == 2 && r.birthday.value.value.day == 29
    requires today.month == 1 && today.day >= 30 && !IsLeapYear(today.year)
    ensures DaysToBirthday(r, today) == Ok(Some(DaysBetween(r.birthday.value.value, today)))
    ensures DaysToNextBirthday(r, today) == Err(DayOutOfRange)
  {
  }
}

=== FILE: directory.dfy ===
/** The address book seen by the handlers: records indexed by contact name. */
module Directory {
  import opened Base
  import opened Records

  type Book = map<string, Record>

  /** `AddressBook()[name]`: the stored record, or ContactNotFound when the name is absent. */
  function Lookup(book: Book, name: string): (r: Result<Record>)
    ensures r.Ok? <==> name in book
    ensures r.Ok? ==> r.value == book[name]
    ensures r.Err? ==> r.error == ContactNotFound
  {
    if name in book then Ok(book[name]) else Err(ContactNotFound)
  }

  /**
   * Storing a record under a name and looking that name up again yields the
   * stored record; lookups of other names are unaffected.
   */
  lemma LookupAfterStore(book: Book, name: string, rec: Record, other: string)
    ensures Lookup(book[name := rec], name) == Ok(rec)
    ensures other != name ==> Lookup(book[name := rec], other) == Lookup(book, other)
  {
  }
}

=== FILE: phone_list.dfy ===
/**
 * The record's ordered phone list: uniqueness by value, and removal through
 * Python's `list.pop(index - 1)`, negative indices included.
 */
module PhoneList {
  import opened Base
  import opened Values

  /** Some phone in `ps` carries the value `v` (the `any(...)` test of add_phone). */
  predicate HasValue(ps: seq<Phone>, v: string) {
    exists i :: 0 <= i < |ps| && ps[i].value == v
  }

  /** No two phones in `ps` share a value. */
  predicate Distinct(ps: seq<Phone>) {
    forall i, j :: 0 <= i < j < |ps| ==> ps[i].value != ps[j].value
  }

  /** Bounds of CPython's `Py_ssize_t`, the machine integer `list.pop` converts its argument to. */
  const SsizeMin: int := -0x8000_0000_0000_0000
  const SsizeMax: int := 0x7FFF_FFFF_FFFF_FFFF

  predicate FitsSsize(k: int) {
    SsizeMin <= k <= SsizeMax
  }

  /** Every Python list is addressable: it holds at most `SsizeMax` items. */
  predicate Addressable(ps: seq<Phone>) {
    |ps| <= SsizeMax
  }

  /**
   * The zero-based slot `list.pop(index - 1)` acts on in a list of length `n`:
   * a non-negative `index - 1` counts from the front, a negative one from the
   * back, and anything outside `[-n, n)` raises IndexError.
   */
  function Slot(n: nat, index: int): (k: Option<nat>)
    ensures k.Some? <==> 1 - n <= index <= n
    ensures k.Some? ==> k.value < n && (k.value == index - 1 || k.value == index - 1 + n)
  {
    var k := index - 1;
    if 0 <= k < n then Some(k)
    else if 0 <= k + n < n then Some(k + n)
    else None
  }

  /**
   * `phones.pop(index - 1)`: the list without the popped phone, and that phone.
   * The argument is first converted to a `Py_ssize_t` (OverflowError if it does
   * not fit), then checked against the list (IndexError).
   */
  function Pop(ps: seq<Phone>, index: int): (r: Result<(seq<Phone>, Phone)>)
    ensures r.Ok? <==> FitsSsize(index - 1) && 1 - |ps| <= index <= |ps|
    ensures Addressable(ps) ==> (r.Ok? <==> 1 - |ps| <= index <= |ps|)
    ensures r.Err? ==> r.error == (if FitsSsize(index - 1) then IndexOutOfRange else IndexOverflow)
    ensures r.Ok? ==>
      var k := Slot(|ps|, index).value;
      var (rest, p) := r.value;
      && p == ps[k]
      && |rest| == |ps| - 1
      && (forall i :: 0 <= i < k ==> rest[i] == ps[i])
      && (forall i :: k <= i < |rest| ==> rest[i] == ps[i + 1])
  {
    if !FitsSsize(index - 1) then Err(IndexOverflow)
    else
      match Slot(|ps|, index)
      case None => Err(IndexOutOfRange)
      case Some(k) => Ok((ps[..k] + ps[k + 1..], ps[k]))
  }

  /** A 1-based index inside the list pops exactly that phone. */
  lemma PopInRange(ps: seq<Phone>, index: int)
    requires 1 <= index <= |ps|
    requires FitsSsize(index - 1)
    ensures Pop(ps, index) == Ok((ps[..index - 1] + ps[index..], ps[index - 1]))
  {
  }

  /** Index 0 asks for position -1, which Python reads as the last phone. */
  lemma PopZeroTakesLast(ps: seq<Phone>)
    requires |ps| > 0
    ensures Pop(ps, 0) == Ok((ps[..|ps| - 1], ps[|ps| - 1]))
  {
    var k := |ps| - 1;
    assert Slot(|ps|, 0) == Some(k);
    assert ps[..k] + ps[k + 1..] == ps[..k];
  }

  /** Putting the popped phone back into its slot restores the list. */
  lemma PopUndo(ps: seq<Phone>, index: int)
    requires Pop(ps, index).Ok?
    ensures
      var k := Slot(|ps|, index).value;
      var (rest, p) := Pop(ps, index).value;
      rest[..k] + [p] + rest[k..] == ps
  {
    var k := Slot(|ps|, index).value;
    var (rest, p) := Pop(ps, index).value;
    assert rest[..k] == ps[..k];
    assert rest[k..] == ps[k + 1..];
    assert ps == ps[..k] + [ps[k]] + ps[k + 1..];
  }

  /** Popping takes exactly one phone out and keeps all the others. */
  lemma PopIsRemoval(ps: seq<Phone>, index: int)
    requires Pop(ps, index).Ok?
    ensures
      var (rest, p) := Pop(ps, index).value;
      multiset(rest) + multiset{p} == multiset(ps)
  {
    var k := Slot(|ps|, index).value;
    var (rest, p) := Pop(ps, index).value;
    PopUndo(ps, index);
    assert ps == rest[..k] + [p] + rest[k..];
    assert rest == rest[..k] + rest[k..];
  }

  /** Popping keeps the values distinct and takes the popped value out of the list. */
  lemma PopKeepsDistinct(ps: seq<Phone>, index: int)
    requires Distinct(ps)
    requires Pop(ps, index).Ok?
    ensures Distinct(Pop(ps, index).value.0)
    ensures !HasValue(Pop(ps, index).value.0, Pop(ps, index).value.1.value)
  {
    RemoveAtKeepsDistinct(ps, Slot(|ps|, index).value);
  }

  /** Taking the phone at slot `k` out keeps the values distinct and removes that value. */
  lemma RemoveAtKeepsDistinct(ps: seq<Phone>, k: nat)
    requires Distinct(ps)
    requires k < |ps|
    ensures Distinct(ps[..k] + ps[k + 1..])
    ensures !HasValue(ps[..k] + ps[k + 1..], ps[k].value)
  {
    var rest := ps[..k] + ps[k + 1..];
    var p := ps[k];
    forall i, j | 0 <= i < j < |rest|
      ensures rest[i].value != rest[j].value
    {
      var i' := if i < k then i else i + 1;
      var j' := if j < k then j else j + 1;
      assert rest[i] == ps[i'] && rest[j] == ps[j'];
    }
    forall i | 0 <= i < |rest|
      ensures rest[i].value != p.value
    {
      var i' := if i < k then i else i + 1;
      assert rest[i] == ps[i'];
    }
  }

  /** Appending a phone whose value is new keeps the values distinct. */
  lemma AppendKeepsDistinct(ps: seq<Phone>, p: Phone)
    requires Distinct(ps)
    requires !HasValue(ps, p.value)
    ensures Distinct(ps + [p])
  {
    var qs := ps + [p];
    forall i, j | 0 <= i < j < |qs|
      ensures qs[i].value != qs[j].value
    {
      if j == |ps| {
        assert qs[i] == ps[i];
      }
    }
  }
}

=== FILE: record.dfy ===
/**
 * One contact: a name, an ordered list of phones with distinct values, and
 * optional birthday, address and email. Every operation returns a `Step`: the
 * record as the call leaves it, together with the returned value or the
 * exception raised. The record travels with the exception because
 * `replace_phone` can raise after it has already changed the list.
 */
module Records {
  import opened Base
  import opened Values
  import opened PhoneList

  /** An unset birthday, address or email is `None` (the source stores `''`). */
  datatype Record = Record(
    name: Name,
    phones: seq<Phone>,
    birthday: Option<Birthday>,
    address: Option<Address>,
    email: Option<Email>)

  /** The record invariant: no two phones share a value. */
  predicate Valid(r: Record) {
    Distinct(r.phones)
  }

  /** The state after an operation, and what it returned or raised. */
  datatype Step<+T> = Step(rec: Record, out: Result<T>)

  /** Python's `if raw`: both a missing argument and the empty string count as not given. */
  predicate Given(raw: Option<string>) {
    raw.Some? && raw.value != ""
  }

  /** An optional constructor argument: absent when not given, otherwise validated. */
  function ConstructOptional<T>(parse: string -> Option<T>, raw: Option<string>): (r: Result<Option<T>>)
    ensures r.Ok? <==> !Given(raw) || parse(raw.value).Some?
    ensures r.Ok? ==> (r.value.Some? <==> Given(raw))
    ensures r.Ok? && Given(raw) ==> r.value.value == parse(raw.value).value
    ensures r.Err? ==> r.error == InvalidFormat
  {
    if Given(raw) then
      var x :- Construct(parse, raw.value);
      Ok(Some(x))
    else
      Ok(None)
  }

  /** `Record(name, phone, birthday, address, email)`: fields are validated in that order. */
  function NewRecord(v: Parsers, name: string, phone: Option<string>, birthday: Option<string>,
                     address: Option<string>, email: Option<string>): (r: Result<Record>)
    ensures r.Ok? <==>
      && v.name(name).Some?
      && (Given(phone) ==> v.phone(phone.value).Some?)
      && (Given(birthday) ==> v.birthday(birthday.value).Some?)
      && (Given(address) ==> v.address(address.value).Some?)
      && (Given(email) ==> v.email(email.value).Some?)
    ensures r.Err? ==> r.error == InvalidFormat
    ensures r.Ok? ==>
      && Valid(r.value)
      && r.value.name == v.name(name).value
      && r.value.phones == (if Given(phone) then [v.phone(phone.value).value] else [])
      && r.value.birthday == (if Given(birthday) then Some(v.birthday(birthday.value).value) else None)
      && r.value.address == (if Given(address) then Some(v.address(address.value).value) else None)
      && r.value.email == (if Given(email) then Some(v.email(email.value).value) else None)
  {
    var n :- Construct(v.name, name);
    var p :- ConstructOptional(v.phone, phone);
    var b :- ConstructOptional(v.birthday, birthday);
    var a :- ConstructOptional(v.address, address);
    var e :- ConstructOptional(v.email, email);
    Ok(Record(n, if p.Some? then [p.value] else [], b, a, e))
  }

  /**
   * `add_phone(raw)`: validates the number, refuses a value already on the
   * record, otherwise appends it and returns it.
   */
  function AddPhone(v: Parsers, r: Record, raw: string): (s: Step<Phone>)
    ensures v.phone(raw).None? ==> s == Step(r, Err(InvalidFormat))
    ensures v.phone(raw).Some? && HasValue(r.phones, v.phone(raw).value.value) ==>
      s == Step(r, Err(DuplicatePhone(v.phone(raw).value.value)))
    ensures s.out.Ok? <==> v.phone(raw).Some? && !HasValue(r.phones, v.phone(raw).value.value)
    ensures s.out.Ok? ==>
      && s.out.value == v.phone(raw).value
      && s.rec == r.(phones := r.phones + [s.out.value])
    ensures Valid(r) ==> Valid(s.rec)
  {
    match v.phone(raw)
    case None => Step(r, Err(InvalidFormat))
    case Some(p) =>
      if HasValue(r.phones, p.value) then
        Step(r, Err(DuplicatePhone(p.value)))
      else
        assert Valid(r) ==> Valid(r.(phones := r.phones + [p])) by {
          if Valid(r) {
            AppendKeepsDistinct(r.phones, p);
          }
        }
        Step(r.(phones := r.phones + [p]), Ok(p))
  }

  /**
   * `remove_phone(index)`: pops the phone at `index - 1` with Python's
   * indexing, so 0 and negative indices count from the end. An `index - 1`
   * beyond `Py_ssize_t` raises OverflowError rather than IndexError.
   */
  function RemovePhone(r: Record, index: int): (s: Step<Phone>)
    ensures s.out.Ok? <==> FitsSsize(index - 1) && 1 - |r.phones| <= index <= |r.phones|
    ensures Addressable(r.phones) ==> (s.out.Ok? <==> 1 - |r.phones| <= index <= |r.phones|)
    ensures s.out.Err? ==>
      s == Step(r, Err(if FitsSsize(index - 1) then IndexOutOfRange else IndexOverflow))
    ensures s.out.Ok? ==>
      && s.rec == r.(phones := s.rec.phones)
      && |s.rec.phones| == |r.phones| - 1
      && multiset(s.rec.phones) + multiset{s.out.value} == multiset(r.phones)
    ensures s.out.Ok? ==> (s.rec.phones, s.out.value) == Pop(r.phones, index).value
    ensures s.out.Ok? && 1 <= index ==>
      s.out.value == r.phones[index - 1] && s.rec.phones == r.phones[..index - 1] + r.phones[index..]
    ensures Valid(r) ==> Valid(s.rec)
    ensures Valid(r) && s.out.Ok? ==> !HasValue(s.rec.phones, s.out.value.value)
  {
    match Pop(r.phones, index)
    case Err(e) => Step(r, Err(e))
    case Ok((rest, p)) =>
      assert multiset(rest) + multiset{p} == multiset(r.phones) by {
        PopIsRemoval(r.phones, index);
      }
      assert Valid(r) ==> Distinct(rest) && !HasValue(rest, p.value) by {
        if Valid(r) {
          PopKeepsDistinct(r.phones, index);
        }
      }
      assert 1 <= index ==> rest == r.phones[..index - 1] + r.phones[index..] by {
        if 1 <= index {
          PopInRange(r.phones, index);
        }
      }
      Step(r.(phones := rest), Ok(p))
  }

  /**
   * `replace_phone(index, raw)`: pops the phone at `index - 1`, then runs
   * `add_phone(raw)` on what is left. A failure of the second half leaves the
   * phone popped: the operation is not atomic.
   */
  function ReplacePhone(v: Parsers, r: Record, index: int, raw: string): (s: Step<(Phone, Phone)>)
    ensures !FitsSsize(index - 1) ==> s == Step(r, Err(IndexOverflow))
    ensures FitsSsize(index - 1) && !(1 - |r.phones| <= index <= |r.phones|) ==>
      s == Step(r, Err(IndexOutOfRange))
    ensures FitsSsize(index - 1) && 1 - |r.phones| <= index <= |r.phones| ==>
      var (rest, prev) := Pop(r.phones, index).value;
      && s.rec.name == r.name && s.rec.birthday == r.birthday
      && s.rec.address == r.address && s.rec.email == r.email
      && (v.phone(raw).None? ==> s == Step(r.(phones := rest), Err(InvalidFormat)))
      && (v.phone(raw).Some? && HasValue(rest, v.phone(raw).value.value) ==>
            s == Step(r.(phones := rest), Err(DuplicatePhone(v.phone(raw).value.value))))
      && (s.out.Ok? <==> v.phone(raw).Some? && !HasValue(rest, v.phone(raw).value.value))
      && (s.out.Ok? ==> s.out.value == (prev, v.phone(raw).value) && s.rec.phones == rest + [v.phone(raw).value])
    ensures s.out.Ok? ==> |s.rec.phones| == |r.phones| && s.rec.phones[|s.rec.phones| - 1] == s.out.value.1
    ensures s.out.Err? && s.rec != r ==> |s.rec.phones| == |r.phones| - 1
    ensures Valid(r) ==> Valid(s.rec)
  {
    match Pop(r.phones, index)
    case Err(e) => Step(r, Err(e))
    case Ok((rest, prev)) =>
      assert Valid(r) ==> Distinct(rest) by {
        if Valid(r) {
          PopKeepsDistinct(r.phones, index);
        }
      }
      var added := AddPhone(v, r.(phones := rest), raw);
      match added.out
      case Err(e) => Step(added.rec, Err(e))
      case Ok(p) => Step(added.rec, Ok((prev, p)))
  }

  /** `change_birthday(raw)`: overwrites the birthday only, and returns it. */
  function ChangeBirthday(v: Parsers, r: Record, raw: string): (s: Step<Birthday>)
    ensures s.out.Ok? <==> v.birthday(raw).Some?
    ensures s.out.Err? ==> s == Step(r, Err(InvalidFormat))
    ensures s.out.Ok? ==> s.out.value == v.birthday(raw).value && s.rec == r.(birthday := Some(s.out.value))
  {
    match Construct(v.birthday, raw)
    case Err(e) => Step(r, Err(e))
    case Ok(b) => Step(r.(birthday := Some(b)), Ok(b))
  }

  /** `change_email(raw)`: overwrites the email only, and returns it. */
  function ChangeEmail(v: Parsers, r: Record, raw: string): (s: Step<Email>)
    ensures s.out.Ok? <==> v.email(raw).Some?
    ensures s.out.Err? ==> s == Step(r, Err(InvalidFormat))
    ensures s.out.Ok? ==> s.out.value == v.email(raw).value && s.rec == r.(email := Some(s.out.value))
  {
    match Construct(v.email, raw)
    case Err(e) => Step(r, Err(e))
    case Ok(e) => Step(r.(email := Some(e)), Ok(e))
  }

  /** `change_address(raw)`: overwrites the address only, and returns it. */
  function ChangeAddress(v: Parsers, r: Record, raw: string): (s: Step<Address>)
    ensures s.out.Ok? <==> v.address(raw).Some?
    ensures s.out.Err? ==> s == Step(r, Err(InvalidFormat))
    ensures s.out.Ok? ==> s.out.value == v.address(raw).value && s.rec == r.(address := Some(s.out.value))
  {
    match Construct(v.address, raw)
    case Err(e) => Step(r, Err(e))
    case Ok(a) => Step(r.(address := Some(a)), Ok(a))
  }

  // ---------------------------------------------------------------------
  // Properties of the phone operations.

  /** Removing the last phone right after adding one gives the record back, whether by its index or by 0. */
  lemma AddThenRemoveRestores(v: Parsers, r: Record, raw: string)
    requires AddPhone(v, r, raw).out.Ok?
    requires Addressable(AddPhone(v, r, raw).rec.phones)
    ensures
      var s := AddPhone(v, r, raw);
      && RemovePhone(s.rec, |s.rec.phones|) == Step(r, Ok(s.out.value))
      && RemovePhone(s.rec, 0) == Step(r, Ok(s.out.value))
  {
    var s := AddPhone(v, r, raw);
    var n := |s.rec.phones|;
    PopInRange(s.rec.phones, n);
    PopZeroTakesLast(s.rec.phones);
    assert s.rec.phones[..n - 1] == r.phones;
  }

  /** Replacing a phone by the same number succeeds and moves that phone to the end of the list. */
  lemma ReplaceWithSameNumber(v: Parsers, r: Record, index: int, raw: string)
    requires Valid(r) && Addressable(r.phones)
    requires 1 <= index <= |r.phones|
    requires v.phone(raw) == Some(r.phones[index - 1])
    ensures
      var s := ReplacePhone(v, r, index, raw);
      && s.out == Ok((r.phones[index - 1], r.phones[index - 1]))
      && s.rec.phones == r.phones[..index - 1] + r.phones[index..] + [r.phones[index - 1]]
      && multiset(s.rec.phones) == multiset(r.phones)
  {
    PopInRange(r.phones, index);
    PopKeepsDistinct(r.phones, index);
    PopIsRemoval(r.phones, index);
  }

  /** Changing a field twice keeps only the second value; a rejected change keeps the first. */
  lemma LastWriteWins(v: Parsers, r: Record, first: string, second: string)
    ensures v.birthday(second).Some? ==>
      ChangeBirthday(v, ChangeBirthday(v, r, first).rec, second) == ChangeBirthday(v, r, second)
    ensures v.email(second).Some? ==>
      ChangeEmail(v, ChangeEmail(v, r, first).rec, second) == ChangeEmail(v, r, second)
    ensures v.address(second).Some? ==>
      ChangeAddress(v, ChangeAddress(v, r, first).rec, second) == ChangeAddress(v, r, second)
    ensures v.birthday(second).None? ==>
      ChangeBirthday(v, ChangeBirthday(v, r, first).rec, second).rec == ChangeBirthday(v, r, first).rec
  {
  }

  /**
   * A session on one contact: add a number, add it again (refused), replace it,
   * remove the replacement, then remove from the empty list (refused).
   */
  lemma PhoneSessionExample(v: Parsers, r: Record)
    requires r.phones == []
    requires v.phone("1234567890") == Some(Phone("1234567890"))
    requires v.phone("5555555555") == Some(Phone("5555555555"))
    ensures
      var s1 := AddPhone(v, r, "1234567890");
      var s2 := AddPhone(v, s1.rec, "1234567890");
      var s3 := ReplacePhone(v, s2.rec, 1, "5555555555");
      var s4 := RemovePhone(s3.rec, 1);
      var s5 := RemovePhone(s4.rec, 1);
      && s1.rec.phones == [Phone("1234567890")]
      && s2 == Step(s1.rec, Err(DuplicatePhone("1234567890")))
      && s3.out == Ok((Phone("1234567890"), Phone("5555555555")))
      && s3.rec.phones == [Phone("5555555555")]
      && s4 == Step(r, Ok(Phone("5555555555")))
      && s5 == Step(r, Err(IndexOutOfRange))
  {
    var s1 := AddPhone(v, r, "1234567890");
    assert HasValue(s1.rec.phones, "1234567890") by {
      assert s1.rec.phones[0].value == "1234567890";
    }
    assert Phone("1234567890") != Phone("5555555555");
  }

  // ---------------------------------------------------------------------
  // Negative indices reach phones the caller did not choose.

  /**
   * The handlers only intercept index 0, so an index of -1 typed by the user
   * reaches `remove_phone` and pops the second-to-last phone instead of
   * raising IndexError.
   */
  lemma NegativeIndexRemovesPhone(r: Record)
    requires |r.phones| >= 2
    ensures
      var n := |r.phones|;
      RemovePhone(r, -1) == Step(r.(phones := r.phones[..n - 2] + [r.phones[n - 1]]), Ok(r.phones[n - 2]))
  {
    var n := |r.phones|;
    assert r.phones[n - 1..] == [r.phones[n - 1]];
  }

  /** `remove_phone` accepting exactly the 1-based indices of the list shown to the user. */
  function RemovePhoneChecked(r: Record, index: int): (s: Step<Phone>)
    ensures s.out.Ok? <==> 1 <= index <= |r.phones|
    ensures s.out.Err? ==> s == Step(r, Err(IndexOutOfRange))
    ensures s.out.Ok? ==>
      && s.out.value == r.phones[index - 1]
      && s.rec == r.(phones := r.phones[..index - 1] + r.phones[index..])
    ensures Valid(r) ==> Valid(s.rec)
  {
    if 1 <= index <= |r.phones| then
      var rest := r.phones[..index - 1] + r.phones[index..];
      assert Valid(r) ==> Distinct(rest) by {
        if Valid(r) {
          RemoveAtKeepsDistinct(r.phones, index - 1);
        }
      }
      Step(r.(phones := rest), Ok(r.phones[index - 1]))
    else
      Step(r, Err(IndexOutOfRange))
  }

  /**
   * The handlers pass `int(input(...))` through unchecked, so a number beyond
   * `Py_ssize_t` reaches `pop` and raises OverflowError, which the handlers'
   * IndexError retry does not catch. Nothing changes.
   */
  lemma HugeIndexOverflows(v: Parsers, r: Record, raw: string)
    ensures RemovePhone(r, SsizeMax + 2) == Step(r, Err(IndexOverflow))
    ensures ReplacePhone(v, r, SsizeMax + 2, raw) == Step(r, Err(IndexOverflow))
  {
  }

  // ---------------------------------------------------------------------
  // A failed replacement loses the replaced phone.

  /**
   * Replacing a phone by the number of another phone on the record raises
   * ValueError, but only after the replaced phone has been popped: the record
   * ends up one phone short.
   */
  lemma ReplaceCollisionDropsPhone(v: Parsers, r: Record, index: int, raw: string, j: int)
    requires Valid(r) && Addressable(r.phones)
    requires 1 <= index <= |r.phones|
    requires 0 <= j < |r.phones| && j != index - 1
    requires v.phone(raw) == Some(r.phones[j])
    ensures
      var s := ReplacePhone(v, r, index, raw);
      && s.out == Err(DuplicatePhone(r.phones[j].value))
      && s.rec.phones == r.phones[..index - 1] + r.phones[index..]
      && |s.rec.phones| == |r.phones| - 1
  {
    PopInRange(r.phones, index);
    var rest := r.phones[..index - 1] + r.phones[index..];
    var j' := if j < index - 1 then j else j - 1;
    assert rest[j'] == r.phones[j];
  }

  /**
   * `replace_phone` done atomically: the index is checked against the list
   * shown to the user and the new number is validated and checked against the
   * other phones before anything changes.
   */
  function ReplacePhoneAtomic(v: Parsers, r: Record, index: int, raw: string): (s: Step<(Phone, Phone)>)
    ensures s.out.Err? ==> s.rec == r
    ensures !(1 <= index <= |r.phones|) ==> s.out == Err(IndexOutOfRange)
    ensures 1 <= index <= |r.phones| ==>
      var others := r.phones[..index - 1] + r.phones[index..];
      && (s.out.Ok? <==> v.phone(raw).Some? && !HasValue(others, v.phone(raw).value.value))
      && (s.out.Ok? ==>
            && s.out.value == (r.phones[index - 1], v.phone(raw).value)
            && s.rec == r.(phones := others + [v.phone(raw).value]))
    ensures Valid(r) ==> Valid(s.rec)
  {
    if !(1 <= index <= |r.phones|) then Step(r, Err(IndexOutOfRange))
    else
      var others := r.phones[..index - 1] + r.phones[index..];
      match v.phone(raw)
      case None => Step(r, Err(InvalidFormat))
      case Some(p) =>
        if HasValue(others, p.value) then Step(r, Err(DuplicatePhone(p.value)))
        else
          assert Valid(r) ==> Distinct(others + [p]) by {
            if Valid(r) {
              RemoveAtKeepsDistinct(r.phones, index - 1);
              AppendKeepsDistinct(others, p);
            }
          }
          Step(r.(phones := others + [p]), Ok((r.phones[index - 1], p)))
  }

  /**
   * For every positive index that converts to a `Py_ssize_t`, the atomic
   * replacement reports the same outcome as `replace_phone`, and when that
   * outcome is success it leaves the same record; they differ only in what a
   * failure leaves behind. A larger index is an OverflowError for
   * `replace_phone` and an IndexError for the atomic version.
   */
  lemma ReplaceAtomicAgrees(v: Parsers, r: Record, index: int, raw: string)
    requires 1 <= index
    ensures FitsSsize(index - 1) ==>
      ReplacePhoneAtomic(v, r, index, raw).out == ReplacePhone(v, r, index, raw).out
    ensures !FitsSsize(index - 1) ==>
      && ReplacePhone(v, r, index, raw).out == Err(IndexOverflow)
      && (Addressable(r.phones) ==> ReplacePhoneAtomic(v, r, index, raw).out == Err(IndexOutOfRange))
    ensures ReplacePhone(v, r, index, raw).out.Ok? ==>
      ReplacePhoneAtomic(v, r, index, raw) == ReplacePhone(v, r, index, raw)
  {
    if index <= |r.phones| && FitsSsize(index - 1) {
      PopInRange(r.phones, index);
    }
  }
}

=== FILE: values.dfy ===
/**
 * The value types a record is built from. Each wraps the validated form of a
 * raw string; the validation rules themselves live outside this model, so a
 * `Parsers` value supplies them as total functions that either accept a raw
 * string or reject it.
 */
module Values {
  import opened Base
  import opened Calendar

  datatype Name = Name(value: string)

  /** Phones are compared by `value` only. */
  datatype Phone = Phone(value: string)

  datatype Birthday = Birthday(value: Date)

  datatype Address = Address(value: string)

  datatype Email = Email(value: string)

  /** The constructors `Name(...)`, `Phone(...)`, `Birthday(...)`, `Address(...)`, `Email(...)`; `None` means the constructor raised. */
  datatype Parsers = Parsers(
    name: string -> Option<Name>,
    phone: string -> Option<Phone>,
    birthday: string -> Option<Birthday>,
    address: string -> Option<Address>,
    email: string -> Option<Email>)

  /** Runs a constructor, turning its rejection into `InvalidFormat`. */
  function Construct<T>(parse: string -> Option<T>, raw: string): (r: Result<T>)
    ensures r.Ok? <==> parse(raw).Some?
    ensures r.Ok? ==> r.value == parse(raw).value
    ensures r.Err? ==> r.error == InvalidFormat
  {
    match parse(raw)
    case None => Err(InvalidFormat)
    case Some(x) => Ok(x)
  }
}
